=== FILE: README.md ===
# qpdf page object helper, modelled in Dafny

This project models the page-level operations of qpdf's `QPDFPageObjectHelper`:
reading a page's content streams, adding a content stream at the front or the
back, coalescing an array of content streams into one stream, attaching a
token filter (which coalesces first), rotating the page, listing its
annotations (optionally of one subtype), listing its images, and removing
resources the content does not reference.

A page is an immutable record (`PageModel.Page`):

- `contents`: a single stream, or an array of streams (`PageModel.Contents`);
- `resources`: an optional map from sub-dictionary names (`/XObject`, `/Font`, ...)
  to name-to-object maps;
- `annots`: the `/Annots` entries, as objects;
- `rotate`: the optional `/Rotate` integer;
- `others`: every other key of the page dictionary, which no operation touches.
  None of the four keys above belongs in it (`PageModel.KeysApart`), and
  every operation keeps that so.

Objects (`PdfObjects.Obj`) are direct values; a stream carries its dictionary,
its data as an opaque byte sequence, and the token filters attached to it, in
attachment order. Every operation is a pure function from the old page to the
new one. `rotatePage` returns a `Result` so that its refusal of an angle that
is not a multiple of 90 is an error value, not a precondition.

Two things qpdf decides internally, or computes itself, are parameters here:

- `sep`: the bytes placed between consecutive content streams when they are
  read or coalesced as one. The header does not say what they are.
- `referenced`: the set of resource names that the content scan of
  `removeUnreferencedResources` finds. The scan itself is not modelled.

Modules: `Wrappers` (Option, Result), `PdfObjects` (objects and streams),
`Join` (joining byte fragments with a separator, with the lemmas that locate
each fragment and each separator), `PageModel` (the page record),
`PageContents`, `PageRotation`, `PageAnnotations`, `PageImages`,
`PageResources`.

Two readings of the header are worth stating:

- qpdf documents rotatePage as setting the rotation to the angle, or adding
  the angle to it, without saying whether the stored value is reduced. The
  contract therefore fixes the result only modulo 360 (`PageRotation.Orientation`).
  The model stores the value reduced to [0, 360).
- With an empty subtype, getAnnotations returns every /Annots entry, whether
  or not it is a dictionary. With a non-empty subtype it returns only
  dictionaries whose `/Subtype` name matches.

## Model

| member | source | states |
|---|---|---|
| PageContents.GetPageContents | include/qpdf/QPDFPageObjectHelper.hh:59-64 | a single content stream reads as a one-element list; an array reads as its streams in array order |
| PageContents.ContentsShapeIrrelevant | include/qpdf/QPDFPageObjectHelper.hh:59-64 | a single stream and a one-element array holding it give the same content list, so callers need not care about the shape |
| PageContents.AddPageContents | include/qpdf/QPDFPageObjectHelper.hh:66-74 | the content list grows by one; with `first` the new stream is at index 0 and the old streams follow in order, otherwise it is last and the old streams precede it unchanged; /Contents becomes an array; nothing outside /Contents changes |
| PageContents.AddToSingleMakesArray | include/qpdf/QPDFPageObjectHelper.hh:68-72 | adding stream `s` to a page whose /Contents is the single stream `S0` yields the array `[s, S0]` at the front and `[S0, s]` at the back |
| PageContents.AddPageContentsBytes | include/qpdf/QPDFPageObjectHelper.hh:66-74 | after adding, the page's content bytes are the new stream's data before (front) or after (back) the old content bytes, with one separator between |
| PageContents.CoalesceContentStreams | include/qpdf/QPDFPageObjectHelper.hh:83-91 | afterwards /Contents is a single stream; a page that already had one is unchanged; an array is replaced by a fresh stream with an empty dictionary and no token filter; the stored content bytes, before any attached token filter, are the same as before; nothing outside /Contents changes |
| PageContents.CoalescedHoldsEachStream | include/qpdf/QPDFPageObjectHelper.hh:83-86 | the coalesced stream holds each array element's data unchanged, at its place in array order, with exactly one separator between neighbours |
| PageContents.CoalesceTwoStreams | include/qpdf/QPDFPageObjectHelper.hh:83-91 | coalescing a two-stream array gives exactly one fresh stream whose data is the first fragment, the separator and the second fragment |
| PageContents.CoalesceIdempotent | include/qpdf/QPDFPageObjectHelper.hh:83-91 | coalescing twice gives the same page as coalescing once |
| PageContents.CoalesceData | include/qpdf/QPDFPageObjectHelper.hh:83-86 | appending the streams one at a time builds exactly the coalesced stream's data |
| PageContents.AddThenCoalesce | include/qpdf/QPDFPageObjectHelper.hh:70-72 | adding a stream and then coalescing leaves one stream whose data is the new stream's data joined, at the front or the back, to the old content bytes, or the new stream's data alone when there were none |
| PageContents.AddContentTokenFilter | include/qpdf/QPDFPageObjectHelper.hh:122-128 | afterwards /Contents is a single stream holding the old content bytes; the filter is attached after the filters already on a single content stream (an array's are dropped by coalescing); a single stream keeps its dictionary; nothing outside /Contents changes |
| PageContents.FiltersAttachInOrder | include/qpdf/QPDFPageObjectHelper.hh:122-128 | attaching two filters leaves them in attachment order on the single content stream, with the content bytes unchanged |
| PageRotation.RotatePage | include/qpdf/QPDFPageObjectHelper.hh:76-81 | fails with InvalidArgument exactly when the angle is not a multiple of 90; otherwise /Rotate is present and the page's orientation becomes the angle (absolute) or the old rotation plus the angle (relative, a missing /Rotate counting as 0), modulo 360; contents, resources, annotations and other keys are unchanged |
| PageRotation.QuarterTurnClockwise | include/qpdf/QPDFPageObjectHelper.hh:78-79 | adding 90 advances the page's orientation by a quarter turn clockwise, modulo 360 |
| PageRotation.FourQuarterTurns | include/qpdf/QPDFPageObjectHelper.hh:76-81 | four relative rotations by 90 return the page to its orientation, and to its exact /Rotate value when that was already in [0, 360) |
| PageRotation.RotationsCompose | include/qpdf/QPDFPageObjectHelper.hh:76-81 | relative rotations by a then b equal one relative rotation by a + b; an absolute rotation ignores any earlier one |
| PageRotation.RelativeRotationUndone | include/qpdf/QPDFPageObjectHelper.hh:76-81 | a relative rotation by -a is accepted after one by a and undoes it: the orientation is restored, and the page itself when its /Rotate was already in [0, 360) |
| PageRotation.RotationStaysQuarterTurn | include/qpdf/QPDFPageObjectHelper.hh:78 | a successful rotation of a page whose rotation is a multiple of 90 leaves a multiple of 90 |
| PageRotation.RotateByFortyFiveFails | include/qpdf/QPDFPageObjectHelper.hh:78 | rotating by 45, absolute or relative, fails with InvalidArgument |
| PageAnnotations.SelectAnnotations | include/qpdf/QPDFPageObjectHelper.hh:52-57 | every returned entry is in /Annots and passes the subtype filter, and there are no more of them than entries in /Annots |
| PageAnnotations.GetAnnotations | include/qpdf/QPDFPageObjectHelper.hh:52-57 | one pass over /Annots returns the selected entries; an empty subtype returns all of /Annots; the result is an order-preserving subsequence of /Annots |
| PageAnnotations.SelectDistributes | include/qpdf/QPDFPageObjectHelper.hh:52-57 | selecting from two runs of annotations one after the other is selecting from each and concatenating, so relative order is kept |
| PageAnnotations.SelectAllWhenUnfiltered | include/qpdf/QPDFPageObjectHelper.hh:52-54 | the empty subtype returns exactly the entries of /Annots |
| PageAnnotations.SelectIsSubsequence | include/qpdf/QPDFPageObjectHelper.hh:52-57 | the selection is /Annots with some entries dropped and the rest in their order |
| PageAnnotations.SelectKeepsEverySelected | include/qpdf/QPDFPageObjectHelper.hh:53-54 | every entry of /Annots of the requested subtype is in the result |
| PageAnnotations.SelectKeepsMultiplicity | include/qpdf/QPDFPageObjectHelper.hh:52-57 | an entry of the requested subtype is returned as many times as it occurs in /Annots, and any other entry not at all |
| PageAnnotations.SelectIdempotent | include/qpdf/QPDFPageObjectHelper.hh:53-54 | filtering the result again by the same subtype changes nothing |
| PageImages.XObjects | include/qpdf/QPDFPageObjectHelper.hh:42-43 | the /XObject sub-dictionary of the page's own resources, empty when there are no resources or no /XObject entry |
| PageImages.GetPageImages | include/qpdf/QPDFPageObjectHelper.hh:42-50 | empty when there are no resources or no /XObject; a name is a key exactly when its XObject is an image; every value is that XObject, and is a stream |
| PageImages.NoImagesNoResult | include/qpdf/QPDFPageObjectHelper.hh:42 | when no XObject is an image the result is empty |
| PageImages.ImagesDependOnResourcesOnly | include/qpdf/QPDFPageObjectHelper.hh:43-48 | two pages with the same own resources have the same images, whatever their contents, annotations or rotation |
| PageResources.RemoveUnreferencedResources | include/qpdf/QPDFPageObjectHelper.hh:130-141 | every sub-dictionary keeps its keys' values and loses entries only; an entry stays exactly when its name is referenced; sub-dictionaries are all kept, even when emptied; a page without resources stays without; nothing outside /Resources changes |
| PageResources.PruneIdempotent | include/qpdf/QPDFPageObjectHelper.hh:130-141 | pruning again with the same referenced names changes nothing |
| PageResources.PruneCompose | include/qpdf/QPDFPageObjectHelper.hh:130-141 | pruning by one set of names and then another equals pruning once by their intersection |
| PageResources.PruneKeepsAllWhenAllReferenced | include/qpdf/QPDFPageObjectHelper.hh:133-134 | when every resource name is referenced, or the page has no /Resources, the page is unchanged |
| PageResources.PruneRestrictsImages | include/qpdf/QPDFPageObjectHelper.hh:130-141 | after pruning, the page's images are the old images restricted to the referenced names |
| PageResources.PruneDropsUnusedImage | include/qpdf/QPDFPageObjectHelper.hh:133-134 | with /Im1, /Im2 and /Im3 in /XObject and only /Im1 and /Im3 referenced, /Im1 and /Im3 remain and /Im2 is removed |

## Left out

- parsePageContents, filterPageContents and pipePageContents (include/qpdf/QPDFPageObjectHelper.hh:97-120): they drive a tokenizer, parser callbacks and pipelines. None of those classes is part of this model.
- The content scan of removeUnreferencedResources: the referenced names are an input (`referenced`). The same set applies to every sub-dictionary. Sub-dictionary values are modelled as maps only, so a non-dictionary entry of /Resources such as a /ProcSet array is not represented.
- What a token filter does to the bytes, and the shared ownership of the filter object. A filter is an opaque identifier attached to the content stream.
- AddContentTokenFilter: coalescing an array discards the filters attached to its elements, so only the filters of a single content stream are kept before the new one; what those filters would have done to the bytes is not modelled.
- CoalesceContentStreams: stream data is opaque and undecoded, so the coalesced data is built from the stored data of each element. Filters attached to individual array elements are not applied. The fresh stream's dictionary is empty; its /Length is not modelled.
- The separator inserted between streams is a parameter, because the header does not fix it.
- A missing /Contents is represented as an empty array of streams. Non-stream elements of a /Contents array are not represented.
- RotatePage: the contract fixes the new rotation only modulo 360, because the header does not say whether the stored value is reduced; the model stores it reduced to [0, 360). The angle is an unbounded integer, so 32-bit overflow of the C++ `int` sum is not modelled. A page without its own /Rotate counts as 0 (`CurrentRotation`); a /Rotate inherited from an ancestor page-tree node is not modelled.
- Inherited resources from ancestor page-tree nodes: getPageImages does not look at them (include/qpdf/QPDFPageObjectHelper.hh:43-45), and removeUnreferencedResources expects inherited attributes to be pushed to the page first (include/qpdf/QPDFPageObjectHelper.hh:135-136).
- Indirect objects, the owning document, allocation of new objects, stream decoding and encryption: objects are plain values.
- The private `Members` class, its holder field and the DLL export macros (include/qpdf/QPDFPageObjectHelper.hh:143-157): they carry no behaviour.

=== FILE: annotations.dfy ===
/**
  getAnnotations: the entries of the page's /Annots, optionally only those
  of one subtype.
 */
module PageAnnotations {

  import opened Wrappers
  import opened PdfObjects
  import opened PageModel

  /** Whether `a` is selected by the filter `onlySubtype`. The empty filter
      selects every entry; otherwise `a` must be a dictionary whose /Subtype
      is the name `onlySubtype`. */
  predicate Selected(onlySubtype: Name, a: Obj) {
    onlySubtype == "" || (a.Dictionary? && DictSubtype(a.entries) == Some(onlySubtype))
  }

  /** The entries of `annots` selected by `onlySubtype`, in their order. */
  function SelectAnnotations(onlySubtype: Name, annots: seq<Obj>): (r: seq<Obj>)
    ensures |r| <= |annots|
    ensures forall a :: a in r ==> a in annots && Selected(onlySubtype, a)
    decreases |annots|
  {
    if |annots| == 0 then []
    else if Selected(onlySubtype, annots[0]) then [annots[0]] + SelectAnnotations(onlySubtype, annots[1..])
    else SelectAnnotations(onlySubtype, annots[1..])
  }

  /** `a` is `b` with some entries dropped, the rest kept in order. */
  predicate IsSubsequence(a: seq<Obj>, b: seq<Obj>)
    decreases |b|
  {
    |a| == 0
    || (|b| > 0
        && ((a[0] == b[0] && IsSubsequence(a[1..], b[1..])) || IsSubsequence(a, b[1..])))
  }

  /** getAnnotations, walking /Annots once. */
  method GetAnnotations(p: Page, onlySubtype: Name) returns (r: seq<Obj>)
    ensures r == SelectAnnotations(onlySubtype, p.annots)
    ensures onlySubtype == "" ==> r == p.annots
    ensures IsSubsequence(r, p.annots)
  {
    r := [];
    var i := 0;
    while i < |p.annots|
      invariant 0 <= i <= |p.annots|
      invariant r == SelectAnnotations(onlySubtype, p.annots[..i])
    {
      assert p.annots[..i + 1] == p.annots[..i] + [p.annots[i]];
      SelectDistributes(onlySubtype, p.annots[..i], [p.annots[i]]);
      if Selected(onlySubtype, p.annots[i]) {
        r := r + [p.annots[i]];
      }
      i := i + 1;
    }
    assert p.annots[..i] == p.annots;
    SelectAllWhenUnfiltered(p.annots);
    SelectIsSubsequence(onlySubtype, p.annots);
  }

  /** Selection distributes over concatenation: it keeps relative order. */
  lemma {:induction false} SelectDistributes(onlySubtype: Name, a: seq<Obj>, b: seq<Obj>)
    ensures SelectAnnotations(onlySubtype, a + b)
         == SelectAnnotations(onlySubtype, a) + SelectAnnotations(onlySubtype, b)
    decreases |a|
  {
    if |a| == 0 {
      assert a + b == b;
    } else {
      assert (a + b)[0] == a[0];
      assert (a + b)[1..] == a[1..] + b;
      SelectDistributes(onlySubtype, a[1..], b);
    }
  }

  /** An empty subtype filter returns every entry of /Annots. */
  lemma {:induction false} SelectAllWhenUnfiltered(annots: seq<Obj>)
    ensures SelectAnnotations("", annots) == annots
    decreases |annots|
  {
    if |annots| > 0 {
      SelectAllWhenUnfiltered(annots[1..]);
    }
  }

  /** The selection is an order-preserving subsequence of /Annots. */
  lemma {:induction false} SelectIsSubsequence(onlySubtype: Name, annots: seq<Obj>)
    ensures IsSubsequence(SelectAnnotations(onlySubtype, annots), annots)
    decreases |annots|
  {
    if |annots| > 0 {
      SelectIsSubsequence(onlySubtype, annots[1..]);
      var r := SelectAnnotations(onlySubtype, annots);
      if Selected(onlySubtype, annots[0]) {
        assert r[0] == annots[0] && r[1..] == SelectAnnotations(onlySubtype, annots[1..]);
      }
    }
  }

  /** Nothing selected is missed: every selected entry of /Annots is returned. */
  lemma {:induction false} SelectKeepsEverySelected(onlySubtype: Name, annots: seq<Obj>, i: nat)
    requires i < |annots| && Selected(onlySubtype, annots[i])
    ensures annots[i] in SelectAnnotations(onlySubtype, annots)
    decreases i
  {
    if i > 0 {
      SelectKeepsEverySelected(onlySubtype, annots[1..], i - 1);
      assert annots[1..][i - 1] == annots[i];
    }
  }

  /** Every selected entry is returned as many times as it occurs in
      /Annots, and nothing else is returned. */
  lemma {:induction false} SelectKeepsMultiplicity(onlySubtype: Name, annots: seq<Obj>)
    ensures forall a :: multiset(SelectAnnotations(onlySubtype, annots))[a]
                     == (if Selected(onlySubtype, a) then multiset(annots)[a] else 0)
    decreases |annots|
  {
    if |annots| > 0 {
      SelectKeepsMultiplicity(onlySubtype, annots[1..]);
      assert annots == [annots[0]] + annots[1..];
      assert multiset(annots) == multiset{annots[0]} + multiset(annots[1..]);
      if Selected(onlySubtype, annots[0]) {
        assert multiset(SelectAnnotations(onlySubtype, annots))
            == multiset{annots[0]} + multiset(SelectAnnotations(onlySubtype, annots[1..]));
      }
    }
  }

  /** Filtering by a subtype twice is filtering once. */
  lemma SelectIdempotent(onlySubtype: Name, annots: seq<Obj>)
    ensures SelectAnnotations(onlySubtype, SelectAnnotations(onlySubtype, annots))
         == SelectAnnotations(onlySubtype, annots)
  {
    SelectOfSelected(onlySubtype, SelectAnnotations(onlySubtype, annots));
  }

  lemma {:induction false} SelectOfSelected(onlySubtype: Name, annots: seq<Obj>)
    requires forall a :: a in annots ==> Selected(onlySubtype, a)
    ensures SelectAnnotations(onlySubtype, annots) == annots
    decreases |annots|
  {
    if |annots| > 0 {
      assert annots[0] in annots;
      SelectOfSelected(onlySubtype, annots[1..]);
    }
  }
}

=== FILE: contents.dfy ===
/**
  The page's content streams: reading them as a list, adding one at the front
  or the back, coalescing them into one stream, and attaching a token filter
  (which forces coalescing first).

  `sep` is the byte sequence placed between consecutive streams when they are
  read, or coalesced, as one; its value is left to the caller.
 */
module PageContents {

  import opened PdfObjects
  import opened PageModel
  import Join

  /** The page's content streams, whatever the shape of /Contents. */
  function GetPageContents(p: Page): (r: seq<Stream>)
    ensures p.contents.Single? ==> r == [p.contents.stream]
    ensures p.contents.StreamArray? ==> r == p.contents.streams
  {
    match p.contents
    case Single(s) => [s]
    case StreamArray(ss) => ss
  }

  /** The data of each stream, in order. */
  function Datas(ss: seq<Stream>): (r: seq<seq<byte>>)
    ensures |r| == |ss|
    ensures forall i :: 0 <= i < |ss| ==> r[i] == ss[i].data
  {
    seq(|ss|, i requires 0 <= i < |ss| => ss[i].data)
  }

  /** The page's stored content bytes, before any attached token filter:
      every content stream's data in order, with `sep` between neighbours. */
  function ContentBytes(p: Page, sep: seq<byte>): seq<byte> {
    Join.Join(Datas(GetPageContents(p)), sep)
  }

  /** The token filters attached to a single content stream. Filters on the
      elements of a /Contents array are not reported. */
  function AttachedFilters(p: Page): seq<FilterId> {
    if p.contents.Single? then p.contents.stream.filters else []
  }

  /** Only /Contents differs between the two pages. */
  predicate OnlyContentsDiffer(p: Page, r: Page) {
    r.resources == p.resources && r.annots == p.annots
    && r.rotate == p.rotate && r.others == p.others
  }

  /** addPageContents: /Contents becomes an array holding the old streams in
      order and `s` either before them (`first`) or after them. */
  function AddPageContents(p: Page, s: Stream, first: bool): (r: Page)
    ensures r.contents.StreamArray?
    ensures |GetPageContents(r)| == |GetPageContents(p)| + 1
    ensures first ==> GetPageContents(r)[0] == s && GetPageContents(r)[1..] == GetPageContents(p)
    ensures !first ==> (GetPageContents(r)[|GetPageContents(p)|] == s
                        && GetPageContents(r)[..|GetPageContents(p)|] == GetPageContents(p))
    ensures OnlyContentsDiffer(p, r)
    ensures KeysApart(p) ==> KeysApart(r)
  {
    var before := GetPageContents(p);
    p.(contents := StreamArray(if first then [s] + before else before + [s]))
  }

  /** The fresh stream that replaces an array of streams when coalescing. */
  function CoalescedStream(ss: seq<Stream>, sep: seq<byte>): Stream {
    Stream(map[], Join.Join(Datas(ss), sep), [])
  }

  /** coalesceContentStreams: a single stream is left alone; an array is
      replaced by one new stream holding the same content bytes, with an
      empty dictionary and no token filter attached. */
  function CoalesceContentStreams(p: Page, sep: seq<byte>): (r: Page)
    ensures r.contents.Single?
    ensures p.contents.Single? ==> r == p
    ensures ContentBytes(r, sep) == ContentBytes(p, sep)
    ensures p.contents.StreamArray? ==>
      r.contents.stream.filters == [] && r.contents.stream.dict == map[]
    ensures OnlyContentsDiffer(p, r)
    ensures KeysApart(p) ==> KeysApart(r)
  {
    match p.contents
    case Single(_) => p
    case StreamArray(ss) => p.(contents := Single(CoalescedStream(ss, sep)))
  }

  /** addContentTokenFilter: coalesce an array first, then attach `f` after
      the filters already attached to the single content stream. */
  function AddContentTokenFilter(p: Page, sep: seq<byte>, f: FilterId): (r: Page)
    ensures r.contents.Single?
    ensures r.contents.stream.data == ContentBytes(p, sep)
    ensures r.contents.stream.filters == AttachedFilters(p) + [f]
    ensures p.contents.Single? ==> r.contents.stream.dict == p.contents.stream.dict
    ensures OnlyContentsDiffer(p, r)
    ensures KeysApart(p) ==> KeysApart(r)
  {
    var q := CoalesceContentStreams(p, sep);
    var s := q.contents.stream;
    q.(contents := Single(s.(filters := s.filters + [f])))
  }

  /** Builds the coalesced data by appending one stream at a time. */
  method CoalesceData(ss: seq<Stream>, sep: seq<byte>) returns (data: seq<byte>)
    ensures data == Join.Join(Datas(ss), sep)
    ensures data == CoalescedStream(ss, sep).data
  {
    data := [];
    var i := 0;
    while i < |ss|
      invariant 0 <= i <= |ss|
      invariant data == Join.Join(Datas(ss[..i]), sep)
    {
      assert Datas(ss[..i + 1]) == Datas(ss[..i]) + [ss[i].data];
      Join.JoinSnoc(Datas(ss[..i]), ss[i].data, sep);
      data := if i == 0 then ss[i].data else data + sep + ss[i].data;
      i := i + 1;
    }
    assert ss[..i] == ss;
  }

  // ---------------------------------------------------------------------
  // Properties relating the operations
  // ---------------------------------------------------------------------

  /** Callers need not care about the shape of /Contents: a single stream
      and a one-element array read the same. */
  lemma ContentsShapeIrrelevant(p: Page, s: Stream)
    ensures GetPageContents(p.(contents := Single(s)))
         == GetPageContents(p.(contents := StreamArray([s])))
    ensures GetPageContents(p.(contents := Single(s))) == [s]
  {
  }

  /** The coalesced stream holds each element stream's data, in array order,
      with exactly one separator between neighbours. */
  lemma CoalescedHoldsEachStream(p: Page, sep: seq<byte>, i: nat)
    requires p.contents.StreamArray? && i < |p.contents.streams|
    ensures var d := CoalesceContentStreams(p, sep).contents.stream.data;
      var o := Join.Offset(Datas(p.contents.streams), sep, i);
      o + |p.contents.streams[i].data| <= |d|
      && d[o..o + |p.contents.streams[i].data|] == p.contents.streams[i].data
    ensures i + 1 < |p.contents.streams| ==>
      var d := CoalesceContentStreams(p, sep).contents.stream.data;
      var o := Join.Offset(Datas(p.contents.streams), sep, i) + |p.contents.streams[i].data|;
      o + |sep| <= |d| && d[o..o + |sep|] == sep
  {
    var ds := Datas(p.contents.streams);
    Join.JoinHoldsFragment(ds, sep, i);
    if i + 1 < |p.contents.streams| {
      Join.JoinHoldsSeparator(ds, sep, i);
    }
  }

  /** Coalescing a two-stream array yields one fresh stream holding the two
      fragments joined by a single separator. */
  lemma CoalesceTwoStreams(p: Page, a: Stream, b: Stream, sep: seq<byte>)
    requires p.contents == StreamArray([a, b])
    ensures GetPageContents(CoalesceContentStreams(p, sep))
         == [Stream(map[], a.data + sep + b.data, [])]
  {
    var ds := Datas([a, b]);
    assert ds == [a.data, b.data];
    assert ds[1..] == [b.data];
    assert Join.Join(ds[1..], sep) == b.data;
    assert Join.Join(ds, sep) == a.data + sep + b.data;
  }

  /** Coalescing twice is coalescing once. */
  lemma CoalesceIdempotent(p: Page, sep: seq<byte>)
    ensures CoalesceContentStreams(CoalesceContentStreams(p, sep), sep)
         == CoalesceContentStreams(p, sep)
  {
  }

  /** Adding a stream to a page with a single stream first makes /Contents an
      array: `[s, S0]` when adding at the front, `[S0, s]` at the back. */
  lemma AddToSingleMakesArray(p: Page, s0: Stream, s: Stream)
    requires p.contents == Single(s0)
    ensures AddPageContents(p, s, true).contents == StreamArray([s, s0])
    ensures AddPageContents(p, s, false).contents == StreamArray([s0, s])
  {
  }

  /** The stored content bytes after addPageContents: the new stream's data
      before or after the old content bytes, separated by `sep`. */
  lemma AddPageContentsBytes(p: Page, s: Stream, first: bool, sep: seq<byte>)
    ensures var before := ContentBytes(p, sep);
      ContentBytes(AddPageContents(p, s, first), sep)
        == if |GetPageContents(p)| == 0 then s.data
           else if first then s.data + sep + before
           else before + sep + s.data
  {
    var before := GetPageContents(p);
    if first {
      assert Datas([s] + before) == [s.data] + Datas(before);
      Join.JoinCons(s.data, Datas(before), sep);
    } else {
      assert Datas(before + [s]) == Datas(before) + [s.data];
      Join.JoinSnoc(Datas(before), s.data, sep);
    }
  }

  /** Adding then coalescing yields one stream whose data is the new stream's
      data joined to the old content bytes. */
  lemma AddThenCoalesce(p: Page, s: Stream, first: bool, sep: seq<byte>)
    ensures var r := CoalesceContentStreams(AddPageContents(p, s, first), sep);
      |GetPageContents(r)| == 1
      && GetPageContents(r)[0].data
         == if |GetPageContents(p)| == 0 then s.data
            else if first then s.data + sep + ContentBytes(p, sep)
            else ContentBytes(p, sep) + sep + s.data
  {
    AddPageContentsBytes(p, s, first, sep);
  }

  /** Token filters attach in order and leave the content bytes alone. */
  lemma FiltersAttachInOrder(p: Page, sep: seq<byte>, f1: FilterId, f2: FilterId)
    ensures var r := AddContentTokenFilter(AddContentTokenFilter(p, sep, f1), sep, f2);
      r.contents.Single?
      && r.contents.stream.filters == AttachedFilters(p) + [f1, f2]
      && r.contents.stream.data == ContentBytes(p, sep)
  {
    var q := AddContentTokenFilter(p, sep, f1);
    assert AttachedFilters(q) + [f2] == AttachedFilters(p) + [f1, f2];
  }
}

=== FILE: images.dfy ===
/**
  getPageImages: the image XObjects named in the page's own /Resources
  (resources inherited from ancestor page-tree nodes are not consulted).
 */
module PageImages {

  import opened Wrappers
  import opened PdfObjects
  import opened PageModel

  /** The page's /XObject sub-dictionary; empty when the page has no
      /Resources or the resources have no /XObject. */
  function XObjects(p: Page): (r: map<Name, Obj>)
    ensures p.resources.None? ==> r == map[]
    ensures p.resources.Some? && XObjectKey !in p.resources.value ==> r == map[]
    ensures p.resources.Some? && XObjectKey in p.resources.value ==> r == p.resources.value[XObjectKey]
  {
    match p.resources
    case None => map[]
    case Some(res) => if XObjectKey in res then res[XObjectKey] else map[]
  }

  /** getPageImages: the XObject name of every image on the page, mapped to
      the image, which is always a stream. */
  function GetPageImages(p: Page): (r: map<Name, Obj>)
    ensures p.resources.None? ==> r == map[]
    ensures p.resources.Some? && XObjectKey !in p.resources.value ==> r == map[]
    ensures forall k :: k in r ==> r[k].StreamObj? && IsImage(r[k])
    ensures forall k :: k in r <==> k in XObjects(p) && IsImage(XObjects(p)[k])
    ensures forall k :: k in r ==> r[k] == XObjects(p)[k]
  {
    var xs := XObjects(p);
    map k | k in xs && IsImage(xs[k]) :: xs[k]
  }

  /** With no image among the XObjects, the result is empty. */
  lemma NoImagesNoResult(p: Page)
    requires forall k :: k in XObjects(p) ==> !IsImage(XObjects(p)[k])
    ensures GetPageImages(p) == map[]
  {
  }

  /** The images depend on /Resources alone: pages that agree there agree here. */
  lemma ImagesDependOnResourcesOnly(p: Page, q: Page)
    requires p.resources == q.resources
    ensures GetPageImages(p) == GetPageImages(q)
  {
  }
}

=== FILE: join.dfy ===
/**
  Joining a list of byte fragments with a separator between consecutive
  fragments: the byte-level meaning of reading several content streams as one.
 */
module Join {

  /** The fragments laid end to end with `sep` between neighbours. */
  function Join<T>(ds: seq<seq<T>>, sep: seq<T>): (r: seq<T>)
    ensures |r| == TotalLength(ds) + (if |ds| == 0 then 0 else (|ds| - 1) * |sep|)
    decreases |ds|
  {
    if |ds| == 0 then []
    else if |ds| == 1 then ds[0]
    else ds[0] + sep + Join(ds[1..], sep)
  }

  /** The sum of the fragment lengths. */
  function TotalLength<T>(ds: seq<seq<T>>): nat
    decreases |ds|
  {
    if |ds| == 0 then 0 else |ds[0]| + TotalLength(ds[1..])
  }

  /** Where fragment `i` starts in the joined sequence. */
  function Offset<T>(ds: seq<seq<T>>, sep: seq<T>, i: nat): nat
    requires i <= |ds|
    decreases i
  {
    if i == 0 then 0 else |ds[0]| + |sep| + Offset(ds[1..], sep, i - 1)
  }

  /** Fragment `i` sits, unchanged, at its offset in the joined sequence. */
  lemma {:induction false} JoinHoldsFragment<T>(ds: seq<seq<T>>, sep: seq<T>, i: nat)
    requires i < |ds|
    ensures Offset(ds, sep, i) + |ds[i]| <= |Join(ds, sep)|
    ensures Join(ds, sep)[Offset(ds, sep, i)..Offset(ds, sep, i) + |ds[i]|] == ds[i]
    decreases i
  {
    if |ds| == 1 {
      assert Join(ds, sep) == ds[0];
    } else if i == 0 {
      assert Join(ds, sep) == ds[0] + (sep + Join(ds[1..], sep));
    } else {
      var tail := ds[1..];
      var head := ds[0] + sep;
      JoinHoldsFragment(tail, sep, i - 1);
      var o := Offset(tail, sep, i - 1);
      assert tail[i - 1] == ds[i];
      assert Join(ds, sep) == head + Join(tail, sep);
      assert Offset(ds, sep, i) == |head| + o;
      SliceOfConcat(head, Join(tail, sep), o, o + |ds[i]|);
    }
  }

  /** Between fragment `i` and fragment `i + 1` sits exactly one separator. */
  lemma {:induction false} JoinHoldsSeparator<T>(ds: seq<seq<T>>, sep: seq<T>, i: nat)
    requires i + 1 < |ds|
    ensures Offset(ds, sep, i + 1) <= |Join(ds, sep)|
    ensures Offset(ds, sep, i) + |ds[i]| + |sep| == Offset(ds, sep, i + 1)
    ensures Join(ds, sep)[Offset(ds, sep, i) + |ds[i]|..Offset(ds, sep, i + 1)] == sep
    decreases i
  {
    var tail := ds[1..];
    var head := ds[0] + sep;
    assert Join(ds, sep) == head + Join(tail, sep);
    if i == 0 {
      assert Offset(ds, sep, 1) == |ds[0]| + |sep| + Offset(tail, sep, 0);
      assert Join(ds, sep)[|ds[0]|..|ds[0]| + |sep|] == sep;
    } else {
      JoinHoldsSeparator(tail, sep, i - 1);
      var o := Offset(tail, sep, i - 1);
      assert tail[i - 1] == ds[i];
      assert Offset(ds, sep, i) == |head| + o;
      assert Offset(ds, sep, i + 1) == |head| + Offset(tail, sep, i);
      SliceOfConcat(head, Join(tail, sep), o + |ds[i]|, Offset(tail, sep, i));
    }
  }

  /** Joining one more fragment at the end appends a separator and that fragment. */
  lemma {:induction false} JoinSnoc<T>(ds: seq<seq<T>>, d: seq<T>, sep: seq<T>)
    ensures Join(ds + [d], sep) == (if |ds| == 0 then d else Join(ds, sep) + sep + d)
    decreases |ds|
  {
    if |ds| == 0 {
      assert ds + [d] == [d];
    } else if |ds| == 1 {
      assert (ds + [d])[1..] == [d];
      assert Join(ds, sep) == ds[0];
    } else {
      assert (ds + [d])[1..] == ds[1..] + [d];
      JoinSnoc(ds[1..], d, sep);
    }
  }

  /** Joining one more fragment at the front prepends that fragment and a separator. */
  lemma JoinCons<T>(d: seq<T>, ds: seq<seq<T>>, sep: seq<T>)
    ensures Join([d] + ds, sep) == (if |ds| == 0 then d else d + sep + Join(ds, sep))
  {
    assert ([d] + ds)[1..] == ds;
  }

  lemma SliceOfConcat<T>(a: seq<T>, b: seq<T>, lo: nat, hi: nat)
    requires lo <= hi <= |b|
    ensures (a + b)[|a| + lo..|a| + hi] == b[lo..hi]
  {
  }
}

=== FILE: objects.dfy ===
/**
  The slice of the PDF object model the page operations need: direct objects
  (no indirect references, no owning document) and streams whose data is an
  opaque byte sequence. Names keep their leading slash, as qpdf spells them.
 */
module PdfObjects {

  import opened Wrappers

  newtype byte = b: int | 0 <= b < 256

  /** Names as qpdf spells them, leading slash included. */
  type Name = string

  /** An opaque handle to a token filter attached to a stream. */
  type FilterId = nat

  datatype Obj =
    | Null
    | Boolean(b: bool)
    | Integer(i: int)
    | NameObj(name: Name)
    | Str(s: string)
    | Array(items: seq<Obj>)
    | Dictionary(entries: map<Name, Obj>)
    | StreamObj(stream: Stream)

  /** A stream: its dictionary, its (undecoded, opaque) data, and the token
      filters attached to it, in attachment order. */
  datatype Stream = Stream(dict: map<Name, Obj>, data: seq<byte>, filters: seq<FilterId>)

  const SubtypeKey: Name := "/Subtype"
  const ImageSubtype: Name := "/Image"
  const XObjectKey: Name := "/XObject"

  /** The /Subtype name of a dictionary, if it has one that is a name. */
  function DictSubtype(d: map<Name, Obj>): (r: Option<Name>)
    ensures r.Some? <==> SubtypeKey in d && d[SubtypeKey].NameObj?
    ensures r.Some? ==> d[SubtypeKey] == NameObj(r.value)
  {
    if SubtypeKey in d && d[SubtypeKey].NameObj? then Some(d[SubtypeKey].name) else None
  }

  /** A stream object whose dictionary marks it as an image XObject. */
  predicate IsImage(o: Obj) {
    o.StreamObj? && DictSubtype(o.stream.dict) == Some(ImageSubtype)
  }
}

=== FILE: page.dfy ===
/**
  A page dictionary reduced to the keys the page operations read or write.
  Every other key of the page is kept, untouched, in `others`.
 */
module PageModel {

  import opened Wrappers
  import opened PdfObjects

  /** /Contents: one stream, or an array of streams (an absent /Contents is
      the empty array: it yields no content streams). */
  datatype Contents = Single(stream: Stream) | StreamArray(streams: seq<Stream>)

  /** /Resources: sub-dictionary name (/XObject, /Font, ...) to its
      name-to-object map. */
  type Resources = map<Name, map<Name, Obj>>

  const ContentsKey: Name := "/Contents"
  const ResourcesKey: Name := "/Resources"
  const AnnotsKey: Name := "/Annots"
  const RotateKey: Name := "/Rotate"

  /** A page: the four keys the operations act on have fields of their own,
      and `others` holds every remaining key of the page dictionary. A page
      read from a PDF never has one of the four in `others` (`KeysApart`). */
  datatype Page = Page(
    contents: Contents,
    resources: Option<Resources>,
    annots: seq<Obj>,
    rotate: Option<int>,
    others: map<Name, Obj>)

  /** `others` holds none of the keys that have a field of their own. */
  predicate KeysApart(p: Page) {
    ContentsKey !in p.others && ResourcesKey !in p.others
    && AnnotsKey !in p.others && RotateKey !in p.others
  }

  /** The error raised for a caller-supplied argument the operation refuses. */
  datatype PageError = InvalidArgument(message: string)
}

=== FILE: resources.dfy ===
/**
  removeUnreferencedResources: dropping every resource entry whose name the
  page's content does not use. The scan of the content that finds the used
  names is not modelled: its result arrives as the set `referenced`.
 */
module PageResources {

  import opened Wrappers
  import opened PdfObjects
  import opened PageModel
  import PageImages

  /** A sub-dictionary cut down to the names in `referenced`. */
  function KeepReferenced(sub: map<Name, Obj>, referenced: set<Name>): (r: map<Name, Obj>)
    ensures forall k :: k in r <==> k in sub && k in referenced
    ensures forall k :: k in r ==> r[k] == sub[k]
  {
    map k | k in sub && k in referenced :: sub[k]
  }

  /** `after` is `before` with some entries of some sub-dictionaries removed. */
  ghost predicate IsPruningOf(after: Resources, before: Resources) {
    after.Keys == before.Keys
    && forall d :: d in after ==>
         (after[d].Keys <= before[d].Keys
          && forall k :: k in after[d] ==> after[d][k] == before[d][k])
  }

  /** Every sub-dictionary of `res` cut down to the names in `referenced`. */
  function PruneAll(res: Resources, referenced: set<Name>): (r: Resources)
    ensures r.Keys == res.Keys
    ensures forall d :: d in r ==> r[d] == KeepReferenced(res[d], referenced)
  {
    map d | d in res :: KeepReferenced(res[d], referenced)
  }

  /** removeUnreferencedResources: every sub-dictionary keeps exactly its
      referenced entries (emptied sub-dictionaries stay, as empty maps); a
      page without /Resources is left alone; nothing outside /Resources
      changes. */
  function RemoveUnreferencedResources(p: Page, referenced: set<Name>): (r: Page)
    ensures r.resources.Some? <==> p.resources.Some?
    ensures p.resources.Some? ==> IsPruningOf(r.resources.value, p.resources.value)
    ensures p.resources.Some? ==> forall d, k :: d in p.resources.value && k in p.resources.value[d] ==>
      (k in r.resources.value[d] <==> k in referenced)
    ensures r.contents == p.contents && r.annots == p.annots
      && r.rotate == p.rotate && r.others == p.others
    ensures KeysApart(p) ==> KeysApart(r)
  {
    match p.resources
    case None => p
    case Some(res) =>
      p.(resources := Some(PruneAll(res, referenced)))
  }

  /** Pruning twice with the same names is pruning once. */
  lemma PruneIdempotent(p: Page, referenced: set<Name>)
    ensures RemoveUnreferencedResources(RemoveUnreferencedResources(p, referenced), referenced)
         == RemoveUnreferencedResources(p, referenced)
  {
    var q := RemoveUnreferencedResources(p, referenced);
    if p.resources.Some? {
      var res := q.resources.value;
      forall d | d in res
        ensures KeepReferenced(res[d], referenced) == res[d]
      {
      }
      assert (map d | d in res :: KeepReferenced(res[d], referenced)) == res;
    }
  }

  /** Pruning by one set and then another is pruning by their intersection. */
  lemma PruneCompose(p: Page, a: set<Name>, b: set<Name>)
    ensures RemoveUnreferencedResources(RemoveUnreferencedResources(p, a), b)
         == RemoveUnreferencedResources(p, a * b)
  {
    if p.resources.Some? {
      PruneAllCompose(p.resources.value, a, b);
    }
  }

  /** Pruning a whole /Resources by `a` and then by `b` is pruning by `a * b`. */
  lemma PruneAllCompose(res: Resources, a: set<Name>, b: set<Name>)
    ensures PruneAll(PruneAll(res, a), b) == PruneAll(res, a * b)
  {
    var twice := PruneAll(PruneAll(res, a), b);
    var both := PruneAll(res, a * b);
    forall d | d in res
      ensures twice[d] == both[d]
    {
      KeepCompose(res[d], a, b);
    }
    assert twice == both;
  }

  /** Within one sub-dictionary, keeping `a` and then `b` keeps `a * b`. */
  lemma KeepCompose(sub: map<Name, Obj>, a: set<Name>, b: set<Name>)
    ensures KeepReferenced(KeepReferenced(sub, a), b) == KeepReferenced(sub, a * b)
  {
  }

  /** When every name is referenced, nothing is removed. */
  lemma PruneKeepsAllWhenAllReferenced(p: Page, referenced: set<Name>)
    requires p.resources.Some? ==>
      forall d, k :: d in p.resources.value && k in p.resources.value[d] ==> k in referenced
    ensures RemoveUnreferencedResources(p, referenced) == p
  {
    if p.resources.Some? {
      var res := p.resources.value;
      forall d | d in res
        ensures KeepReferenced(res[d], referenced) == res[d]
      {
      }
      assert PruneAll(res, referenced) == res;
    }
  }

  /** Pruning restricts the page's images to the referenced names. */
  lemma PruneRestrictsImages(p: Page, referenced: set<Name>)
    ensures var before := PageImages.GetPageImages(p);
      PageImages.GetPageImages(RemoveUnreferencedResources(p, referenced))
        == map k | k in before && k in referenced :: before[k]
  {
  }

  /** Of /Im1, /Im2 and /Im3, content naming only /Im1 and /Im3 keeps those
      two and drops /Im2. */
  lemma PruneDropsUnusedImage(p: Page, im1: Obj, im2: Obj, im3: Obj)
    requires p.resources == Some(map[XObjectKey := map["/Im1" := im1, "/Im2" := im2, "/Im3" := im3]])
    ensures RemoveUnreferencedResources(p, {"/Im1", "/Im3"}).resources
         == Some(map[XObjectKey := map["/Im1" := im1, "/Im3" := im3]])
  {
    var sub := map["/Im1" := im1, "/Im2" := im2, "/Im3" := im3];
    var kept := KeepReferenced(sub, {"/Im1", "/Im3"});
    assert "/Im2" != "/Im1" && "/Im2" != "/Im3";
    assert kept == map["/Im1" := im1, "/Im3" := im3];
    var res := p.resources.value;
    assert (map d | d in res :: KeepReferenced(res[d], {"/Im1", "/Im3"})) == map[XObjectKey := kept];
  }
}

=== FILE: rotation.dfy ===
/**
  rotatePage: setting or adding to the page's /Rotate, in degrees clockwise.
  What is promised is the orientation the page ends up in: the angle asked
  for (absolute) or the old rotation plus the angle (relative), modulo 360.
  The model stores that value reduced to [0, 360).
 */
module PageRotation {

  import opened Wrappers
  import opened PageModel

  /** A multiple of 90. A zero remainder means the same under C++'s
      truncating `%` and Dafny's Euclidean `%`, so the test is exact. */
  predicate IsQuarterTurn(angle: int) {
    angle % 90 == 0
  }

  /** The page's current rotation; a page without /Rotate is upright. */
  function CurrentRotation(p: Page): int {
    p.rotate.GetOr(0)
  }

  /** The orientation a viewer shows, in [0, 360). */
  function Orientation(p: Page): (r: int)
    ensures 0 <= r < 360
  {
    CurrentRotation(p) % 360
  }

  /** rotatePage: refuses an angle that is not a multiple of 90; otherwise
      turns the page to `angle`, or by `angle` from where it was, writing
      /Rotate and leaving every other part of the page alone. */
  function RotatePage(p: Page, angle: int, relative: bool): (r: Result<Page, PageError>)
    ensures r.Failure? <==> !IsQuarterTurn(angle)
    ensures r.Success? ==> r.value.rotate.Some?
    ensures r.Success? && !relative ==> Orientation(r.value) == angle % 360
    ensures r.Success? && relative ==> Orientation(r.value) == (CurrentRotation(p) + angle) % 360
    ensures r.Success? ==>
      r.value.contents == p.contents && r.value.resources == p.resources
      && r.value.annots == p.annots && r.value.others == p.others
    ensures r.Success? && KeysApart(p) ==> KeysApart(r.value)
  {
    if !IsQuarterTurn(angle) then
      Failure(InvalidArgument("rotatePage called with an angle that is not a multiple of 90"))
    else
      Success(p.(rotate := Some((if relative then CurrentRotation(p) + angle else angle) % 360)))
  }

  /** The page a successful rotation produces: /Rotate holds the new
      orientation, everything else is the old page. */
  lemma Rotated(p: Page, angle: int, relative: bool)
    requires IsQuarterTurn(angle)
    ensures RotatePage(p, angle, relative)
         == Success(p.(rotate := Some((if relative then CurrentRotation(p) + angle else angle) % 360)))
  {
  }

  /** A successful rotation keeps the rotation a multiple of 90 when it was one. */
  lemma RotationStaysQuarterTurn(p: Page, angle: int, relative: bool)
    requires IsQuarterTurn(CurrentRotation(p))
    requires RotatePage(p, angle, relative).Success?
    ensures IsQuarterTurn(CurrentRotation(RotatePage(p, angle, relative).value))
  {
    var x := if relative then CurrentRotation(p) + angle else angle;
    QuarterTurnSum(CurrentRotation(p), angle);
    var k := x / 90;
    assert x == 90 * k;
    Rotated(p, angle, relative);
    ReducedQuarterTurn(k);
  }

  /** Multiples of 90 add up to a multiple of 90. */
  lemma QuarterTurnSum(a: int, b: int)
    requires IsQuarterTurn(a) && IsQuarterTurn(b)
    ensures IsQuarterTurn(a + b) && IsQuarterTurn(-a)
  {
    var m, n := a / 90, b / 90;
    assert a == 90 * m && b == 90 * n;
    assert a + b == 90 * (m + n);
    assert -a == 90 * -m;
  }

  /** Reducing a multiple of 90 modulo 360 leaves a multiple of 90. */
  lemma ReducedQuarterTurn(k: int)
    ensures IsQuarterTurn((90 * k) % 360)
  {
    assert 90 * k == 360 * (k / 4) + 90 * (k % 4);
    ModMultiple(k / 4, 90 * (k % 4));
  }

  /** Adding 90 turns the page a quarter clockwise. */
  lemma QuarterTurnClockwise(p: Page)
    ensures RotatePage(p, 90, true).Success?
    ensures Orientation(RotatePage(p, 90, true).value) == (Orientation(p) + 90) % 360
  {
    var c := CurrentRotation(p);
    Rotated(p, 90, true);
    ModShift(c, 90);
  }

  /** Four relative quarter turns bring the page back to its orientation,
      and back to its very /Rotate value when that was already in [0, 360). */
  lemma FourQuarterTurns(p: Page)
    ensures var r1 := RotatePage(p, 90, true).value;
      var r2 := RotatePage(r1, 90, true).value;
      var r3 := RotatePage(r2, 90, true).value;
      var r4 := RotatePage(r3, 90, true).value;
      Orientation(r4) == Orientation(p)
      && (p.rotate.Some? && 0 <= p.rotate.value < 360 ==> r4 == p)
  {
    var c := CurrentRotation(p);
    var r2 := RotatePage(RotatePage(p, 90, true).value, 90, true).value;
    RotationsCompose(p, 90, 90);
    RotationsCompose(r2, 90, 90);
    RotationsCompose(p, 180, 180);
    Rotated(p, 360, true);
    ModMultiple(1, c);
    ModShift(c, 0);
    if p.rotate.Some? && 0 <= p.rotate.value < 360 {
      assert c % 360 == c;
    }
  }

  /** Two relative rotations add up; an absolute rotation ignores the old one. */
  lemma RotationsCompose(p: Page, a: int, b: int)
    requires IsQuarterTurn(a) && IsQuarterTurn(b)
    ensures RotatePage(RotatePage(p, a, true).value, b, true)
         == RotatePage(p, a + b, true)
    ensures RotatePage(RotatePage(p, a, true).value, b, false)
         == RotatePage(p, b, false)
  {
    var c := CurrentRotation(p);
    QuarterTurnSum(a, b);
    Rotated(p, a, true);
    var r1 := RotatePage(p, a, true).value;
    Rotated(r1, b, true);
    Rotated(r1, b, false);
    Rotated(p, a + b, true);
    Rotated(p, b, false);
    ModShift(c + a, b);
    assert c + a + b == c + (a + b);
  }

  /** A relative rotation by -a undoes one by a: the orientation comes back,
      and so does /Rotate itself when it was already in [0, 360). */
  lemma RelativeRotationUndone(p: Page, a: int)
    requires IsQuarterTurn(a)
    ensures RotatePage(RotatePage(p, a, true).value, -a, true).Success?
    ensures var back := RotatePage(RotatePage(p, a, true).value, -a, true).value;
      Orientation(back) == Orientation(p)
      && (p.rotate.Some? && 0 <= p.rotate.value < 360 ==> back == p)
  {
    UndoneReduces(p, a);
    ModShift(CurrentRotation(p), 0);
    if p.rotate.Some? && 0 <= p.rotate.value < 360 {
      assert CurrentRotation(p) % 360 == CurrentRotation(p);
    }
  }

  /** Rotating by a and back by -a leaves /Rotate holding the old rotation,
      reduced. */
  lemma UndoneReduces(p: Page, a: int)
    requires IsQuarterTurn(a)
    ensures RotatePage(RotatePage(p, a, true).value, -a, true)
         == Success(p.(rotate := Some(CurrentRotation(p) % 360)))
  {
    var c := CurrentRotation(p);
    QuarterTurnSum(a, a);
    Rotated(p, a, true);
    var r1 := RotatePage(p, a, true).value;
    Rotated(r1, -a, true);
    ModShift(c + a, -a);
    assert c + a + -a == c;
  }

  /** Reducing before adding `y` gives the same residue as adding first. */
  lemma ModShift(x: int, y: int)
    ensures ((x % 360) + y) % 360 == (x + y) % 360
  {
    var q := x / 360;
    assert x == 360 * q + x % 360;
    ModMultiple(q, x % 360 + y);
  }

  /** Adding whole turns does not change the residue. */
  lemma ModMultiple(q: int, z: int)
    ensures (360 * q + z) % 360 == z % 360
  {
    var w := z % 360;
    assert z == 360 * (z / 360) + w;
    assert 360 * q + z == 360 * (q + z / 360) + w;
  }

  /** A refused rotation leaves nothing to inspect: the call fails with
      InvalidArgument whatever the page. */
  lemma RotateByFortyFiveFails(p: Page, relative: bool)
    ensures RotatePage(p, 45, relative).Failure?
    ensures RotatePage(p, 45, relative).error.InvalidArgument?
  {
  }
}

=== FILE: wrappers.dfy ===
/** Small failure-carrying datatypes used by the page model. */
module Wrappers {

  /** An optional value: a dictionary key that may be missing. */
  datatype Option<+T> = None | Some(value: T) {

    /** The carried value, or `default` when there is none. */
    function GetOr(default: T): T {
      match this
      case Some(v) => v
      case None => default
    }
  }

  /** The outcome of an operation that can reject its arguments. */
  datatype Result<+R, +E> = Success(value: R) | Failure(error: E)
}
